=== FILE: README.md ===
# Student attendance system: enrollment, recognition and attendance ledger

This Dafny project models the decision logic of a Flask classroom-attendance
application. The application enrolls a student's face under an integer
label. It recognises a face from a webcam frame and marks the student
present for a course and date. It also reports, for a course and date, every
student with their attendance status.

The model has seven modules:

- `Optional` (`option.dfy`): the `None`/`Some` value Python expresses with `None`.
- `LabelMaps` (`label_map.dfy`): the recognizer's `student_id_map` dict from face
  label to student id. It is a sequence of (label, student) entries with distinct
  labels in insertion order. The order matters because the reverse lookup takes
  the first matching entry. The module also covers `.get`, the reverse lookup and
  `max(keys) + 1` allocation.
- `Recognizer` (`recognizer.dfy`): `train_recognizer` as `Enroll` and
  `recognize_face` as `Recognize`. Detection is a face count. `predict` is a
  `(label, confidence)` pair or an exception. The train/update/save block is a
  `TrainStep` recording which of its calls raised.
- `Ledger` (`ledger.dfy`): the `attendance` table as a sequence of rows in rowid
  order, and the read-then-update-or-insert upsert of `record_attendance`.
- `Summary` (`summary.dfy`): the `attendance_summary` query. This is a LEFT JOIN of
  all students with the course/date records, ordered by roll number under SQLite's
  BINARY text collation.
- `DataUrl` (`data_url.dfy`): Python's `str.split(',')` and the `[1]` payload pick
  applied to the posted data URL.
- `App` (`app.py` handlers): `register_face`, `recognize_student` and the catalog
  lookup. These are composed from the modules above.

Vision, decoding, the clock and the database are parameters. The decoder is a
function `string -> Option<Frame>` from the payload to the face count and the
prediction. `None` stands for a decoding failure: `b64decode` raising, or
`cv2.imdecode` returning `None`, which makes `cvtColor` in the detector raise.
Either way the request ends in an uncaught exception. The insert timestamp is a
`now` string. The tables are sequences.

Behaviours of the code that the model keeps:

- An attendance row's `timestamp` is set by its column default when the row is
  inserted. The `UPDATE` of `record_attendance` changes only `status`, so the
  timestamp stays at insert time. `Upsert` keeps the old timestamp.
- Label allocation and the reverse lookup keep the label map injective: a
  student already in the map is never given a second label. `Enroll` and
  `EnrollAll` preserve `Injective`.
- `train_recognizer` puts a new label into the in-memory map before training. If
  training or saving then raises, the call returns False and the entry stays in
  memory. The `Enroll` contract states this.
- The table has no unique constraint on (course, student, date). `UPDATE` rewrites
  every row with the key, and the LEFT JOIN yields one summary row per matching
  record. The model keeps both behaviours: `JoinStudent` gives each status as
  many rows as there are matching records carrying it, and marking a student
  present shows them as present on any ledger. The one-row-per-key results are
  proved under the `UniqueKeys` invariant, which the sequential upsert preserves.
- `recognize_student` tests the returned id for truthiness. Student id 0 is
  therefore reported as "No matching student found".
- `register_face` does not check that the student exists. It reports a training or
  saving failure with the same message as a frame with zero or several faces.

## Model

| member | source | states |
|---|---|---|
| LabelMaps.Get | attendance_system/face_recognition/recognizer.py:122 | `student_id_map.get(label)` is None exactly when the label is not a key, and otherwise returns the student stored under that label |
| LabelMaps.FindLabel | attendance_system/face_recognition/recognizer.py:55-57 | the reverse lookup finds a label exactly when the student is a value of the map, and returns the label of the oldest entry holding that student |
| LabelMaps.MaxLabel | attendance_system/face_recognition/recognizer.py:63 | `max(keys)` of a non-empty map is a key and is at least every key |
| LabelMaps.NextLabel | attendance_system/face_recognition/recognizer.py:59-64 | the allocated label is 1 for an empty map, and otherwise one above an existing key and above every key, so it is fresh |
| LabelMaps.Add | attendance_system/face_recognition/recognizer.py:65 | inserting a fresh label adds exactly that key and student, maps the label to the student, changes no other lookup, keeps the map injective when the student was absent, and keeps labels dense when the label is the count plus one |
| LabelMaps.LabelCount | attendance_system/face_recognition/recognizer.py:55-57 | the number of labels holding a student is zero exactly when the student is not a value |
| LabelMaps.InjectiveLabelCount | attendance_system/face_recognition/recognizer.py:55-65 | in an injective map each stored student has exactly one label |
| LabelMaps.DenseNextLabel | attendance_system/face_recognition/recognizer.py:60-64 | when labels are 1..N in insertion order the next label is N+1 |
| Recognizer.Enroll | attendance_system/face_recognition/recognizer.py:41-90 | success is the nested try: `update` worked or the fallback `train` did, then both files were saved (`TrainStep.Succeeded`); a frame without exactly one face returns False with the map unchanged; success means one face plus working training and saving; an enrolled student reuses the reverse-lookup label with the map unchanged; a new student gets a fresh label above all others, mapped to them, with every other entry unchanged, and the entry stays even when training fails; injectivity and density are preserved and entries are only appended |
| Recognizer.Recognize | attendance_system/face_recognition/recognizer.py:103-127 | a student is returned exactly when the frame has one face, `predict` did not raise, the confidence is strictly below 70 and the label is a key; the student returned is the one stored under the predicted label |
| Recognizer.Enrolled | attendance_system/face_recognition/recognizer.py:41-45 | the students put into the map by a sequence of calls are those of the calls with exactly one face |
| Recognizer.EnrollAll | attendance_system/face_recognition/recognizer.py:55-65 | after any sequence of enrollments the map's students are the old ones plus those enrolled from one-face frames; the map stays injective and dense and only grows |
| Recognizer.OneLabelPerStudent | attendance_system/face_recognition/recognizer.py:55-65 | starting from an injective map, after any sequence of enrollments every enrolled student is the value of exactly one label |
| Recognizer.ReenrollIdempotent | attendance_system/face_recognition/recognizer.py:55-57 | enrolling the same student twice leaves the map as the first call left it and trains under the same label |
| Recognizer.EnrollThenRecognize | attendance_system/face_recognition/recognizer.py:116-122 | after a one-face enrollment, a prediction of the sample's label with confidence below 70 is recognised as that student |
| Ledger.CountKey | attendance_system/app.py:139-144 | the number of rows with a key is zero exactly when the SELECT finds no row, the `if existing:` test (`HasKey`) |
| Ledger.SetStatus | attendance_system/app.py:145-148 | the UPDATE rewrites the status of every row with the key and leaves every other row and field as it was |
| Ledger.Upsert | attendance_system/app.py:139-153 | branching on `HasKey` as `if existing:` does, rows with other keys are untouched in place; an existing key only has its status overwritten, timestamp kept; a missing key gets exactly one appended row with the key and status |
| Ledger.RecordAttendance | attendance_system/app.py:130-158 | afterwards the key has a record and every record with the key says "present"; a row is added only when the key had none, then at most one; every row with another key is left where and as it was |
| Ledger.UpsertCount | attendance_system/app.py:139-153 | an upsert leaves a key with one row if it had none and with its old count otherwise, and leaves every other key's count unchanged |
| Ledger.UpsertPreservesUniqueKeys | attendance_system/app.py:138-153 | run sequentially, an upsert keeps at most one row per (course, student, date) |
| Ledger.UpsertExactlyOne | attendance_system/app.py:139-153 | under that invariant the key has exactly one row after an upsert, carrying the new status |
| Ledger.UpsertIdempotent | attendance_system/app.py:139-158 | repeating an upsert, even at another time, gives the same ledger |
| Ledger.LastWriteWins | attendance_system/app.py:139-153 | upserting one status and then another leaves a single record with the second status |
| Ledger.UniqueCount | attendance_system/app.py:139-142 | with unique keys a present key has exactly one row |
| Summary.RollLeTotal | attendance_system/app.py:171 | any two roll numbers are ordered one way or the other under the text collation |
| Summary.RollLeTransitive | attendance_system/app.py:171 | the roll-number order is transitive |
| Summary.RollLeAntisymmetric | attendance_system/app.py:171 | roll numbers ordered both ways are equal |
| Summary.InsertByRoll | attendance_system/app.py:171 | inserting into a roll-ordered list keeps it ordered and adds exactly the one student |
| Summary.SortByRoll | attendance_system/app.py:171 | the students come out in roll-number order as a permutation of the catalog |
| Summary.MatchingStatuses | attendance_system/app.py:170 | the join finds as many statuses as there are rows with the key, each taken from such a row, every such row's status is among them, and each status occurs exactly as often as there are rows with the key carrying it |
| Summary.StatusOf | attendance_system/app.py:168-170 | the joined status is NULL exactly when no row has the key, and otherwise is the status of such a row |
| Summary.JoinStudent | attendance_system/app.py:168-170 | a student yields one row per matching record, or a single NULL-status row when there is none, each carrying the student's own fields; when records match, every row has a non-NULL status taken from a matching record, every matching record's status appears, and each status labels exactly as many rows as there are matching records carrying it |
| Summary.JoinAll | attendance_system/app.py:167-172 | every joined row belongs to a listed student and every listed student has a row, duplicate records or not |
| Summary.JoinAllHasStudentRows | attendance_system/app.py:168-172 | every row the join gives a listed student appears among the joined rows of the whole list, whatever the ledger holds |
| Summary.JoinAllOnlyStudentRows | attendance_system/app.py:168-172 | every joined row is one of the LEFT JOIN rows of the student it shows, so the whole join holds exactly the students' own join rows, whatever the ledger holds |
| Summary.AttendanceSummary | attendance_system/app.py:167-172 | every summary row belongs to a catalog student and every catalog student has a row, duplicate records or not |
| Summary.SummaryRowsOfStudent | attendance_system/app.py:167-172 | every summary row is one of the LEFT JOIN rows of the student it shows: a student appears only with the statuses of their matching records, or with NULL when there are none |
| Summary.JoinStudentOrdered | attendance_system/app.py:171 | the rows of one student are in roll-number order |
| Summary.JoinAllOrdered | attendance_system/app.py:171 | joining a roll-ordered list of students gives rows in roll-number order |
| Summary.SummaryOrdered | attendance_system/app.py:171 | summary rows are ordered by roll number |
| Summary.SortKeepsRows | attendance_system/app.py:167-172 | ordering the students does not change which rows the join produces, only their order |
| Summary.JoinStudentUnique | attendance_system/app.py:168-170 | with one record per key a student yields exactly one row carrying the record's status or NULL |
| Summary.JoinAllUnique | attendance_system/app.py:167-172 | with one record per key the join has one row per listed student, in the same order, with that student's status |
| Summary.RowCount | attendance_system/app.py:167-172 | with one record per key a student's row occurs in the join as often as the student in the list |
| Summary.DistinctOnce | attendance_system/database/db_utils.py:25 | in a catalog with distinct ids each student occurs once |
| Summary.SummaryOneRowPerStudent | attendance_system/app.py:167-172 | with one record per key, the summary lists every catalog student exactly once with their status or NULL, and no other row |
| DataUrl.Split | attendance_system/app.py:105 | `split(',')` gives at least one comma-free piece, one piece exactly when there is no comma, and the pieces joined with commas give back the input |
| DataUrl.SplitJoin | attendance_system/app.py:105 | splitting comma-free pieces joined with commas gives back the pieces |
| DataUrl.Payload | attendance_system/app.py:70 | `split(',')[1]` fails exactly when there is no comma, and otherwise yields the comma-free text between the first comma and the next comma or the end |
| DataUrl.PayloadOfDataUrl | attendance_system/app.py:105 | a data URL `header,body` followed by nothing or by text starting with a comma yields exactly `body` |
| App.DecodeFrame | attendance_system/app.py:105-110 | a posted image without a comma can never be decoded; otherwise the frame is exactly the decoder's answer on the `split(',')[1]` payload |
| App.FindStudent | attendance_system/app.py:117 | the lookup finds nothing exactly when no catalog row has the id, and otherwise returns a catalog row with that id |
| App.RegisterFace | attendance_system/app.py:66-83 | the answer is a server error exactly when the image does not decode, with the map unchanged; a decoded frame leaves the map as `train_recognizer` leaves it, unchanged for a frame without exactly one face; success exactly for a one-face frame with working training and saving; every other outcome is the no-face message; a one-face frame files the student under its label; injectivity is kept |
| App.RecognizeStudent | attendance_system/app.py:102-127 | an undecodable image is a server error; success exactly when recognition yields a non-zero id that is in the catalog, answering that very id and the "first last" name (`DisplayName`) of the catalog row found for it; every other outcome is the no-match message |
| App.RegisterThenRecognize | attendance_system/app.py:66-127 | a student registered from a one-face frame is recognised by id and name from a later frame predicted as that label with confidence below 70 |
| App.MarkedPresentInSummary | attendance_system/app.py:129-172 | after marking a catalog student present, the summary for that course and date shows the student with status "present", and every summary row of that student says "present", for any ledger (duplicate rows for a key included) and any catalog |

## Left out

- Face detection, grayscale conversion, face cropping and the LBPH `train`/`update`/`predict` calls are abstract inputs. These are the face count, the `TrainStep` flags and the `Prediction`. The confidence is an exact `real`; its floating-point computation is not modelled.
- Base64 decoding and `cv2.imdecode` are the caller's `decode` function. A payload that does not decode raises, in `b64decode` or in the detector's `cvtColor` on the `None` that `imdecode` returns, and is modelled as `ServerError`.
- Writing `trainer.yml` and pickling the label map (the `saveRaised` flag) and loading both at startup are file I/O. The startup map is the argument `Enroll` is called with. `Enroll` does not model the on-disk copy that is left stale when saving fails.
- Concurrent requests are not modelled. Everything is sequential, so the read-modify-write races on the map and on the attendance table are outside the model.
- Flask routing, template rendering, form parsing, the GET branches, and the course/student list and insert routes are not modelled. The catalog is a sequence of `Student` values.
- The SQLite schema is not modelled. Row ids are the positions in the sequence. Converting the text form fields `course_id` and `student_id` to INTEGER column values is not modelled; ids are integers.
- `attendance_summary` defaults the date to today from the clock. The model takes the date as a parameter.
- Summary.SortByRoll: SQLite does not fix the order of rows with equal roll numbers, and roll numbers are UNIQUE. The sort places an inserted student before equal ones. Only the ordering by roll number is stated, not an order among equals.
- The browser scripts are user interface only.
- App.RecognizeStudent: a recognised id outside SQLite's signed 64-bit INTEGER range makes the `SELECT * FROM students WHERE id = ?` binding raise OverflowError (HTTP 500); ids are unbounded integers here and the model answers the no-match message for them.
- Summary.AttendanceSummary: a `course_id` outside SQLite's signed 64-bit INTEGER range makes the course and summary queries raise (HTTP 500); the model returns the rows as for any other id.
- Ledger.RecordAttendance: ids outside SQLite's signed 64-bit INTEGER range make the statements raise; the model records them as for any other id.
- The `print` calls in the exception handlers of `train_recognizer` and `recognize_face` only log to the console and are not modelled; the returned values are.

=== FILE: app.dfy ===
/**
 The request handlers of the web application that carry logic:
 `register_face` and `recognize_student`, with the catalog lookup
 `SELECT * FROM students WHERE id = ?`. Base64 and image decoding, detection and prediction are one caller-supplied function from
 the posted payload to what the vision calls report about the frame.
 */
module App {
  import opened Optional
  import opened LabelMaps
  import opened Recognizer
  import opened Ledger
  import opened Summary
  import opened DataUrl

  /** What the vision calls report about a decoded frame. */
  datatype Frame = Frame(faceCount: nat, prediction: Prediction)

  /** The JSON a face route answers with, or an uncaught exception (HTTP 500). */
  datatype Response =
    | Registered
    | Matched(studentId: int, studentName: string)
    | Failed(message: string)
    | ServerError

  const NoFaceMessage: string := "No face detected or multiple faces detected"
  const NoMatchMessage: string := "No matching student found"

  /** The frame behind a posted data URL: None where `split(',')[1]` raises,
      or where the payload does not decode (`b64decode` raises, or
      `imdecode` yields None and the detector's `cvtColor` raises). */
  function DecodeFrame(imageData: string, decode: string -> Option<Frame>): (r: Option<Frame>)
    ensures ',' !in imageData ==> r.None?
    ensures Payload(imageData).Some? ==> r == decode(Payload(imageData).value)
  {
    match Payload(imageData)
    case None => None
    case Some(payload) => decode(payload)
  }

  /** `SELECT * FROM students WHERE id = ?` with `fetchone()`: the first
      catalog row with that id. */
  function FindStudent(students: seq<Student>, id: int): (r: Option<Student>)
    ensures r.None? <==> forall i :: 0 <= i < |students| ==> students[i].id != id
    ensures r.Some? ==> r.value in students && r.value.id == id
  {
    if |students| == 0 then None
    else if students[0].id == id then Some(students[0])
    else
      assert forall i :: 1 <= i < |students| ==> students[i] == students[1..][i - 1];
      FindStudent(students[1..], id)
  }

  /** `f"{first_name} {last_name}"` */
  function DisplayName(s: Student): string {
    s.firstName + " " + s.lastName
  }

  datatype Registration = Registration(response: Response, labels: LabelMap)

  /** `register_face(student_id)` on POST. The student id is not checked
      against the catalog, and a training or saving failure is reported with
      the same message as a bad frame. */
  function RegisterFace(labels: LabelMap, imageData: string, decode: string -> Option<Frame>,
                        student: int, step: TrainStep): (r: Registration)
    ensures DecodeFrame(imageData, decode).None? ==> r == Registration(ServerError, labels)
    ensures r.response.ServerError? <==> DecodeFrame(imageData, decode).None?
    // a decoded frame leaves the map as `train_recognizer` leaves it
    ensures DecodeFrame(imageData, decode).Some? ==>
              r.labels == Enroll(labels, DecodeFrame(imageData, decode).value.faceCount, student, step).labels
    ensures r.response.Registered? <==>
              DecodeFrame(imageData, decode).Some?
              && DecodeFrame(imageData, decode).value.faceCount == 1 && step.Succeeded()
    ensures r.response in {Registered, Failed(NoFaceMessage), ServerError}
    ensures DecodeFrame(imageData, decode).Some? && DecodeFrame(imageData, decode).value.faceCount == 1
            ==> Get(r.labels, Enroll(labels, 1, student, step).sampleLabel.value) == Some(student)
    ensures Injective(labels) ==> Injective(r.labels)
  {
    match DecodeFrame(imageData, decode)
    case None => Registration(ServerError, labels)
    case Some(frame) =>
      var e := Enroll(labels, frame.faceCount, student, step);
      Registration(if e.ok then Registered else Failed(NoFaceMessage), e.labels)
  }

  /** `recognize_student()`: success only when recognition yields a truthy
      (non-zero) student id that is in the catalog. */
  function RecognizeStudent(labels: LabelMap, imageData: string, decode: string -> Option<Frame>,
                            students: seq<Student>): (r: Response)
    ensures r.ServerError? <==> DecodeFrame(imageData, decode).None?
    ensures r.Matched? <==>
              DecodeFrame(imageData, decode).Some?
              && var f := DecodeFrame(imageData, decode).value;
                 var id := Recognize(labels, f.faceCount, f.prediction);
                 id.Some? && id.value != 0 && FindStudent(students, id.value).Some?
    ensures r.Matched? ==> exists s :: s in students && s.id == r.studentId
                                       && r.studentName == DisplayName(s)
    ensures r.Matched? ==> r.studentId != 0 && r.studentId in Students(labels)
    // the answer is the recognised id and the catalog row found for it
    ensures r.Matched? ==>
              var f := DecodeFrame(imageData, decode).value;
              && r.studentId == Recognize(labels, f.faceCount, f.prediction).value
              && r.studentName == DisplayName(FindStudent(students, r.studentId).value)
    ensures !r.Matched? && !r.ServerError? ==> r == Failed(NoMatchMessage)
  {
    match DecodeFrame(imageData, decode)
    case None => ServerError
    case Some(frame) =>
      var id := Recognize(labels, frame.faceCount, frame.prediction);
      if id.Some? && id.value != 0 then
        assert id.value in Students(labels) by {
          var i :| 0 <= i < |labels| && labels[i] == (frame.prediction.id, id.value);
        }
        match FindStudent(students, id.value)
        case Some(s) => Matched(s.id, DisplayName(s))
        case None => Failed(NoMatchMessage)
      else Failed(NoMatchMessage)
  }

  /** A student registered from a one-face frame whose later frame is
      predicted as the registered label, under the distance threshold, is
      recognised by name. */
  lemma RegisterThenRecognize(labels: LabelMap, step: TrainStep, s: Student, students: seq<Student>,
                              enrollData: string, decodeEnroll: string -> Option<Frame>,
                              matchData: string, decodeMatch: string -> Option<Frame>)
    requires s in students && DistinctIds(students) && s.id != 0
    requires DecodeFrame(enrollData, decodeEnroll).Some?
    requires DecodeFrame(enrollData, decodeEnroll).value.faceCount == 1
    requires var l := Enroll(labels, 1, s.id, step).sampleLabel.value;
             exists c :: c < Threshold && DecodeFrame(matchData, decodeMatch) == Some(Frame(1, Predicted(l, c)))
    ensures var reg := RegisterFace(labels, enrollData, decodeEnroll, s.id, step);
            RecognizeStudent(reg.labels, matchData, decodeMatch, students) == Matched(s.id, DisplayName(s))
  {
    var reg := RegisterFace(labels, enrollData, decodeEnroll, s.id, step);
    var e := Enroll(labels, 1, s.id, step);
    assert reg.labels == e.labels;
    var c :| c < Threshold && DecodeFrame(matchData, decodeMatch) == Some(Frame(1, Predicted(e.sampleLabel.value, c)));
    EnrollThenRecognize(labels, s.id, step, c);
    assert Recognize(reg.labels, 1, Predicted(e.sampleLabel.value, c)) == Some(s.id);
    FindListed(students, s);
  }

  /** With distinct ids, looking up a listed student's id finds that student. */
  lemma FindListed(students: seq<Student>, s: Student)
    requires s in students && DistinctIds(students)
    ensures FindStudent(students, s.id) == Some(s)
  {
    var f := FindStudent(students, s.id);
    var i :| 0 <= i < |students| && students[i] == f.value;
    var j :| 0 <= j < |students| && students[j] == s;
    assert i == j;
  }

  /** After a student is marked present, the summary for that course and date
      shows the student's row with status "present". */
  lemma MarkedPresentInSummary(students: seq<Student>, ledger: seq<Record>, courseId: int,
                               date: string, now: string, s: Student)
    requires s in students
    ensures RowFor(s, Some(Present))
            in AttendanceSummary(students, RecordAttendance(ledger, courseId, s.id, date, now), courseId, date)
    // and the student is shown with no other status
    ensures forall row :: row in AttendanceSummary(students, RecordAttendance(ledger, courseId, s.id, date, now),
                                                   courseId, date) && StudentOf(row) == s
              ==> row.status == Some(Present)
  {
    var k := Key(courseId, s.id, date);
    var after := RecordAttendance(ledger, courseId, s.id, date, now);
    var i :| 0 <= i < |after| && after[i].KeyOf() == k;
    assert RowFor(s, Some(Present)) in JoinStudent(s, after, courseId, date) by {
      assert after[i].status == Present;
    }
    var sorted := SortByRoll(students);
    assert s in sorted by {
      assert s in multiset(students);
    }
    JoinAllHasStudentRows(sorted, after, courseId, date, s);
    OnlyPresent(students, after, courseId, date, s);
  }

  /** When every record of the student's key says "present", so does every
      summary row of the student. */
  lemma OnlyPresent(students: seq<Student>, after: seq<Record>, courseId: int, date: string, s: Student)
    requires HasKey(after, Key(courseId, s.id, date))
    requires forall i :: 0 <= i < |after| && after[i].KeyOf() == Key(courseId, s.id, date) ==>
               after[i].status == Present
    ensures forall row :: row in AttendanceSummary(students, after, courseId, date) && StudentOf(row) == s
              ==> row.status == Some(Present)
  {
    SummaryRowsOfStudent(students, after, courseId, date);
    forall row | row in AttendanceSummary(students, after, courseId, date) && StudentOf(row) == s
      ensures row.status == Some(Present)
    {
      var rows := JoinStudent(s, after, courseId, date);
      assert row in rows;
      var j :| 0 <= j < |rows| && rows[j] == row;
    }
  }
}

=== FILE: data_url.dfy ===
/**
 The image field posted by the camera page is a data URL,
 `data:image/jpeg;base64,<payload>`; both face routes keep
 `image_data.split(',')[1]`, which raises IndexError when there is no comma.
 */
module DataUrl {
  import opened Optional

  /** Position of the first `c` in `s`. */
  function IndexOf(s: string, c: char): (i: nat)
    requires c in s
    ensures i < |s| && s[i] == c && c !in s[..i]
  {
    if s[0] == c then 0
    else
      var j := IndexOf(s[1..], c);
      assert s[1..][..j] == s[1..j + 1];
      assert s[..j + 1] == [s[0]] + s[1..j + 1];
      j + 1
  }

  /** `sep.join(pieces)` */
  function Join(pieces: seq<string>, sep: char): string
    requires |pieces| >= 1
  {
    if |pieces| == 1 then pieces[0] else pieces[0] + [sep] + Join(pieces[1..], sep)
  }

  /** Python's `s.split(sep)` for a one-character separator: the pieces between
      separators, empty ones included; there is always at least one. */
  function Split(s: string, sep: char): (pieces: seq<string>)
    ensures |pieces| >= 1
    ensures forall p :: p in pieces ==> sep !in p
    ensures Join(pieces, sep) == s
    ensures |pieces| == 1 <==> sep !in s
    decreases |s|
  {
    if sep !in s then [s]
    else
      var i := IndexOf(s, sep);
      var rest := Split(s[i + 1..], sep);
      assert s == s[..i] + [sep] + s[i + 1..];
      [s[..i]] + rest
  }

  /** Splitting undoes joining pieces that do not contain the separator. */
  lemma {:induction false} SplitJoin(pieces: seq<string>, sep: char)
    requires |pieces| >= 1
    requires forall p :: p in pieces ==> sep !in p
    ensures Split(Join(pieces, sep), sep) == pieces
  {
    if |pieces| > 1 {
      var s := Join(pieces, sep);
      var p := pieces[0];
      assert pieces[0] in pieces;
      SplitJoin(pieces[1..], sep);
      assert s == p + [sep] + Join(pieces[1..], sep);
      assert s[|p|] == sep;
      assert s[..|p|] == p;
      assert IndexOf(s, sep) == |p|;
      assert s[|p| + 1..] == Join(pieces[1..], sep);
    }
  }

  /** `s` is a comma-free `header`, a comma, `body`, and then either nothing
      or text starting with a comma. */
  ghost predicate SplitsAround(s: string, header: string, body: string, rest: string) {
    && s == header + "," + body + rest
    && ',' !in header
    && (rest == [] || rest[0] == ',')
  }

  /** `image_data.split(',')[1]`: the text between the first and the second
      comma (or the end); None where Python raises IndexError. */
  function Payload(dataUrl: string): (r: Option<string>)
    ensures r.None? <==> ',' !in dataUrl
    ensures r.Some? ==> ',' !in r.value
    // the text between the first comma and the next comma or the end
    ensures r.Some? ==> exists header, rest :: SplitsAround(dataUrl, header, r.value, rest)
  {
    var pieces := Split(dataUrl, ',');
    if |pieces| < 2 then None
    else
      var rest := if |pieces| == 2 then [] else "," + Join(pieces[2..], ',');
      assert pieces[1..][1..] == pieces[2..];
      assert Join(pieces[1..], ',') == pieces[1] + rest;
      assert dataUrl == pieces[0] + "," + pieces[1] + rest;
      assert pieces[0] in pieces;
      assert SplitsAround(dataUrl, pieces[0], pieces[1], rest);
      Some(pieces[1])
  }

  /** A comma-free header, a comma and a comma-free payload, followed by
      nothing or by more comma-separated text, yields exactly the payload. */
  lemma PayloadOfDataUrl(header: string, body: string, rest: string)
    requires ',' !in body
    requires SplitsAround(header + "," + body + rest, header, body, rest)
    ensures Payload(header + "," + body + rest) == Some(body)
  {
    var more := MorePieces(rest);
    var pieces := [header] + ([body] + more);
    JoinBody(body, rest);
    assert pieces[1..] == [body] + more;
    assert Join(pieces, ',') == header + "," + body + rest;
    forall p | p in pieces ensures ',' !in p {
      if p != header && p != body { assert p in more; }
    }
    SplitJoin(pieces, ',');
    assert pieces[1] == body;
  }

  /** The pieces of the text after the payload, without its leading comma. */
  function MorePieces(rest: string): (more: seq<string>)
    requires rest == [] || rest[0] == ','
    ensures forall p :: p in more ==> ',' !in p
  {
    if rest == [] then [] else Split(rest[1..], ',')
  }

  lemma JoinBody(body: string, rest: string)
    requires rest == [] || rest[0] == ','
    ensures Join([body] + MorePieces(rest), ',') == body + rest
  {
    var more := MorePieces(rest);
    var pieces := [body] + more;
    if rest != [] {
      assert more == Split(rest[1..], ',');
      assert pieces[1..] == more;
      assert Join(pieces, ',') == body + [','] + rest[1..];
      assert rest == [','] + rest[1..];
    }
  }
}

=== FILE: label_map.dfy ===
/**
 The recognizer's `student_id_map`: a Python dict from integer face label to
 student id. A dict never holds a key twice and iterates in insertion order,
 so it is modelled as a sequence of (label, student) entries with distinct
 labels, oldest entry first.
 */
module LabelMaps {
  import opened Optional

  /** One dict item: (label, student id). */
  type Entry = (int, int)

  ghost predicate DistinctLabels(e: seq<Entry>) {
    forall i, j :: 0 <= i < j < |e| ==> e[i].0 != e[j].0
  }

  type LabelMap = e: seq<Entry> | DistinctLabels(e) witness []

  /** `student_id_map.keys()` */
  function Labels(m: seq<Entry>): set<int> {
    set i | 0 <= i < |m| :: m[i].0
  }

  /** `student_id_map.values()` */
  function Students(m: seq<Entry>): set<int> {
    set i | 0 <= i < |m| :: m[i].1
  }

  /** `student_id_map.get(label)`: the student stored under the label `key`, or None. */
  function Get(m: LabelMap, key: int): (r: Option<int>)
    ensures r.None? <==> key !in Labels(m)
    ensures forall s :: r == Some(s) <==> (key, s) in m
  {
    if |m| == 0 then None
    else if m[0].0 == key then
      assert forall i :: 1 <= i < |m| ==> m[i].0 != key;
      Some(m[0].1)
    else
      var r := Get(m[1..], key);
      assert Labels(m) == {m[0].0} + Labels(m[1..]) by {
        assert forall i :: 1 <= i < |m| ==> m[i].0 == m[1..][i - 1].0;
      }
      r
  }

  /**
   `[k for k, v in student_id_map.items() if v == student_id][0]`: the label of
   the oldest entry whose value is `student`, or None when `student` is not a
   value of the map.
   */
  function FindLabel(m: seq<Entry>, student: int): (r: Option<int>)
    ensures r.None? <==> student !in Students(m)
    ensures r.Some? ==> exists i :: 0 <= i < |m| && m[i] == (r.value, student)
                                    && forall j :: 0 <= j < i ==> m[j].1 != student
  {
    if |m| == 0 then None
    else if m[0].1 == student then Some(m[0].0)
    else
      var r := FindLabel(m[1..], student);
      assert Students(m) == {m[0].1} + Students(m[1..]) by {
        assert forall i :: 1 <= i < |m| ==> m[i].1 == m[1..][i - 1].1;
      }
      if r.Some? then
        var i :| 0 <= i < |m[1..]| && m[1..][i] == (r.value, student)
                 && forall j :: 0 <= j < i ==> m[1..][j].1 != student;
        assert m[i + 1] == (r.value, student);
        r
      else r
  }

  /** `max(student_id_map.keys())` */
  function MaxLabel(m: seq<Entry>): (k: int)
    requires |m| > 0
    ensures k in Labels(m)
    ensures forall l :: l in Labels(m) ==> l <= k
  {
    if |m| == 1 then m[0].0
    else
      var k := MaxLabel(m[1..]);
      assert Labels(m) == {m[0].0} + Labels(m[1..]) by {
        assert forall i :: 1 <= i < |m| ==> m[i].0 == m[1..][i - 1].0;
      }
      if m[0].0 < k then k else m[0].0
  }

  /** The label a new student receives: `max(keys) + 1`, or 1 for an empty map. */
  function NextLabel(m: seq<Entry>): (l: int)
    ensures l !in Labels(m)
    ensures forall k :: k in Labels(m) ==> k < l
    ensures |m| == 0 ==> l == 1
    ensures |m| > 0 ==> l - 1 in Labels(m)
  {
    if |m| == 0 then 1 else MaxLabel(m) + 1
  }

  /** `student_id_map[key] = student` for a label not yet in the map: a new
      entry goes last in iteration order. */
  function Add(m: LabelMap, key: int, student: int): (r: LabelMap)
    requires key !in Labels(m)
    ensures Labels(r) == Labels(m) + {key}
    ensures Students(r) == Students(m) + {student}
    ensures Get(r, key) == Some(student)
    ensures forall l :: l != key ==> Get(r, l) == Get(m, l)
    ensures Injective(m) && student !in Students(m) ==> Injective(r)
    ensures Dense(m) && key == |m| + 1 ==> Dense(r)
    ensures m <= r
  {
    var r := m + [(key, student)];
    assert forall i :: 0 <= i < |m| ==> m[i].0 != key;
    assert forall i :: 0 <= i < |m| ==> r[i] == m[i];
    assert r[|m|] == (key, student);
    forall l | l in Labels(r) ensures l in Labels(m) + {key} {
      var i :| 0 <= i < |r| && r[i].0 == l;
      if i < |m| { assert m[i].0 == l; }
    }
    forall s | s in Students(r) ensures s in Students(m) + {student} {
      var i :| 0 <= i < |r| && r[i].1 == s;
      if i < |m| { assert m[i].1 == s; }
    }
    assert (key, student) in r;
    r
  }

  /** Every student id is the value of at most one label. */
  ghost predicate Injective(m: seq<Entry>) {
    forall i, j :: 0 <= i < j < |m| ==> m[i].1 != m[j].1
  }

  /** Labels are exactly 1..N in insertion order: what allocation from an
      empty map produces. */
  ghost predicate Dense(m: seq<Entry>) {
    forall i :: 0 <= i < |m| ==> m[i].0 == i + 1
  }

  /** The number of labels under which `student` is stored. */
  function LabelCount(m: seq<Entry>, student: int): (n: nat)
    ensures n == 0 <==> student !in Students(m)
    ensures n <= |m|
  {
    if |m| == 0 then 0
    else
      assert Students(m) == {m[0].1} + Students(m[1..]) by {
        assert forall i :: 1 <= i < |m| ==> m[i].1 == m[1..][i - 1].1;
      }
      (if m[0].1 == student then 1 else 0) + LabelCount(m[1..], student)
  }

  /** In an injective map, a stored student has exactly one label. */
  lemma {:induction false} InjectiveLabelCount(m: seq<Entry>, student: int)
    requires Injective(m)
    ensures LabelCount(m, student) == (if student in Students(m) then 1 else 0)
  {
    if |m| > 0 {
      InjectiveLabelCount(m[1..], student);
      if m[0].1 == student {
        assert forall i :: 1 <= i < |m| ==> m[i].1 != student;
        assert student !in Students(m[1..]);
      }
    }
  }

  /** In a dense map the next label is the count plus one. */
  lemma DenseNextLabel(m: seq<Entry>)
    ensures Dense(m) ==> NextLabel(m) == |m| + 1
  {
    if |m| > 0 && Dense(m) {
      assert m[|m| - 1].0 in Labels(m);
      forall l | l in Labels(m) ensures l <= |m| {
        var i :| 0 <= i < |m| && m[i].0 == l;
      }
    }
  }
}

=== FILE: ledger.dfy ===
/**
 The `attendance` table and `record_attendance`'s read-then-write upsert.
 The table has no uniqueness constraint on (course, student, date), so the
 ledger is a plain sequence of rows in insertion (rowid) order and the
 one-row-per-key property is an invariant the upsert has to keep.
 */
module Ledger {

  /** What identifies an attendance record. */
  datatype Key = Key(courseId: int, studentId: int, date: string)

  /** One `attendance` row. `timestamp` is the column's insert-time default. */
  datatype Record = Record(courseId: int, studentId: int, date: string,
                           status: string, timestamp: string)
  {
    function KeyOf(): Key { Key(courseId, studentId, date) }
  }

  /** The status the face-recognition flow always writes. */
  const Present: string := "present"

  /** Does the `SELECT ... WHERE course_id = ? AND student_id = ? AND date = ?` find a row? */
  predicate HasKey(ledger: seq<Record>, k: Key) {
    exists i :: 0 <= i < |ledger| && ledger[i].KeyOf() == k
  }

  /** The number of rows with key `k`. */
  function CountKey(ledger: seq<Record>, k: Key): (n: nat)
    ensures n == 0 <==> !HasKey(ledger, k)
    ensures n <= |ledger|
  {
    if |ledger| == 0 then 0
    else
      assert HasKey(ledger, k) <==> ledger[0].KeyOf() == k || HasKey(ledger[1..], k) by {
        assert forall i :: 1 <= i < |ledger| ==> ledger[i] == ledger[1..][i - 1];
      }
      (if ledger[0].KeyOf() == k then 1 else 0) + CountKey(ledger[1..], k)
  }

  /** At most one row per (course, student, date). */
  ghost predicate UniqueKeys(ledger: seq<Record>) {
    forall i, j :: 0 <= i < j < |ledger| ==> ledger[i].KeyOf() != ledger[j].KeyOf()
  }

  /** `UPDATE attendance SET status = ? WHERE <key matches>`: every row with
      key `k` gets the new status, every other row is left as it was. */
  function SetStatus(ledger: seq<Record>, k: Key, status: string): (r: seq<Record>)
    ensures |r| == |ledger|
    ensures forall i :: 0 <= i < |ledger| && ledger[i].KeyOf() != k ==> r[i] == ledger[i]
    ensures forall i :: 0 <= i < |ledger| && ledger[i].KeyOf() == k ==>
              r[i] == ledger[i].(status := status)
  {
    if |ledger| == 0 then []
    else
      var head := if ledger[0].KeyOf() == k then ledger[0].(status := status) else ledger[0];
      [head] + SetStatus(ledger[1..], k, status)
  }

  /** The upsert of `record_attendance` with an arbitrary status: overwrite the
      status of the rows with key `k` if there are any, else insert one row
      stamped `now`. */
  function Upsert(ledger: seq<Record>, k: Key, status: string, now: string): (r: seq<Record>)
    ensures |ledger| <= |r|
    // rows with another key are untouched and keep their positions
    ensures forall i :: 0 <= i < |ledger| && ledger[i].KeyOf() != k ==> r[i] == ledger[i]
    // an existing record only has its status overwritten (its timestamp is kept)
    ensures HasKey(ledger, k) ==> |r| == |ledger|
    ensures forall i :: 0 <= i < |ledger| && ledger[i].KeyOf() == k ==>
              r[i] == ledger[i].(status := status)
    // otherwise exactly one row is appended
    ensures !HasKey(ledger, k) ==>
              r == ledger + [Record(k.courseId, k.studentId, k.date, status, now)]
    ensures HasKey(r, k)
  {
    if HasKey(ledger, k) then
      var r := SetStatus(ledger, k, status);
      var i :| 0 <= i < |ledger| && ledger[i].KeyOf() == k;
      assert r[i].KeyOf() == k;
      r
    else
      var r := ledger + [Record(k.courseId, k.studentId, k.date, status, now)];
      assert r[|ledger|].KeyOf() == k;
      r
  }

  /** `record_attendance(course_id, student_id, date)`: the status written is
      always "present". */
  function RecordAttendance(ledger: seq<Record>, courseId: int, studentId: int,
                            date: string, now: string): (r: seq<Record>)
    ensures HasKey(r, Key(courseId, studentId, date))
    ensures forall i :: 0 <= i < |r| && r[i].KeyOf() == Key(courseId, studentId, date) ==>
              r[i].status == Present
    ensures |ledger| <= |r| <= |ledger| + 1
    // a row is added only when the key had none
    ensures HasKey(ledger, Key(courseId, studentId, date)) ==> |r| == |ledger|
    ensures forall i :: 0 <= i < |ledger| && ledger[i].KeyOf() != Key(courseId, studentId, date) ==>
              r[i] == ledger[i]
  {
    Upsert(ledger, Key(courseId, studentId, date), Present, now)
  }

  /** The number of rows with key `k` after an upsert: one if there were none,
      unchanged otherwise; every other key's count is unchanged. */
  lemma {:induction false} UpsertCount(ledger: seq<Record>, k: Key, status: string,
                                       now: string, other: Key)
    ensures CountKey(Upsert(ledger, k, status, now), k) == if HasKey(ledger, k) then CountKey(ledger, k) else 1
    ensures other != k ==> CountKey(Upsert(ledger, k, status, now), other) == CountKey(ledger, other)
  {
    if HasKey(ledger, k) {
      SetStatusCount(ledger, k, status, k);
      SetStatusCount(ledger, k, status, other);
    } else {
      CountAppend(ledger, Record(k.courseId, k.studentId, k.date, status, now), k);
      CountAppend(ledger, Record(k.courseId, k.studentId, k.date, status, now), other);
    }
  }

  lemma {:induction false} SetStatusCount(ledger: seq<Record>, k: Key, status: string, q: Key)
    ensures CountKey(SetStatus(ledger, k, status), q) == CountKey(ledger, q)
  {
    if |ledger| > 0 {
      SetStatusCount(ledger[1..], k, status, q);
      assert SetStatus(ledger, k, status)[1..] == SetStatus(ledger[1..], k, status);
    }
  }

  lemma {:induction false} CountAppend(ledger: seq<Record>, rec: Record, q: Key)
    ensures CountKey(ledger + [rec], q) == CountKey(ledger, q) + (if rec.KeyOf() == q then 1 else 0)
  {
    if |ledger| > 0 {
      CountAppend(ledger[1..], rec, q);
      assert (ledger + [rec])[1..] == ledger[1..] + [rec];
    }
  }

  /** Run one after another, upserts keep at most one row per key. */
  lemma UpsertPreservesUniqueKeys(ledger: seq<Record>, k: Key, status: string, now: string)
    requires UniqueKeys(ledger)
    ensures UniqueKeys(Upsert(ledger, k, status, now))
  {
    var r := Upsert(ledger, k, status, now);
    forall i, j | 0 <= i < j < |r| ensures r[i].KeyOf() != r[j].KeyOf() {
      if j == |ledger| {
        assert r[j].KeyOf() == k;
        assert ledger[i].KeyOf() != k;
      } else {
        assert r[i].KeyOf() == ledger[i].KeyOf();
        assert r[j].KeyOf() == ledger[j].KeyOf();
      }
    }
  }

  /** Under the invariant, the key has exactly one row after an upsert, and it
      carries the new status. */
  lemma UpsertExactlyOne(ledger: seq<Record>, k: Key, status: string, now: string)
    requires UniqueKeys(ledger)
    ensures CountKey(Upsert(ledger, k, status, now), k) == 1
    ensures exists i :: 0 <= i < |Upsert(ledger, k, status, now)|
                        && Upsert(ledger, k, status, now)[i].KeyOf() == k
                        && Upsert(ledger, k, status, now)[i].status == status
  {
    UpsertPreservesUniqueKeys(ledger, k, status, now);
    UniqueCount(Upsert(ledger, k, status, now), k);
    var r := Upsert(ledger, k, status, now);
    var i :| 0 <= i < |r| && r[i].KeyOf() == k;
    assert r[i].status == status;
  }

  lemma {:induction false} UniqueCount(ledger: seq<Record>, k: Key)
    requires UniqueKeys(ledger)
    requires HasKey(ledger, k)
    ensures CountKey(ledger, k) == 1
  {
    if ledger[0].KeyOf() == k {
      assert !HasKey(ledger[1..], k) by {
        assert forall i :: 1 <= i < |ledger| ==> ledger[i].KeyOf() != k;
        assert forall i :: 0 <= i < |ledger| - 1 ==> ledger[1..][i] == ledger[i + 1];
      }
    } else {
      var i :| 0 <= i < |ledger| && ledger[i].KeyOf() == k;
      assert ledger[1..][i - 1].KeyOf() == k;
      UniqueCount(ledger[1..], k);
    }
  }

  /** Repeating an upsert changes nothing, whatever clock value it carries. */
  lemma UpsertIdempotent(ledger: seq<Record>, k: Key, status: string, now: string, later: string)
    ensures Upsert(Upsert(ledger, k, status, now), k, status, later) == Upsert(ledger, k, status, now)
  {
    var r := Upsert(ledger, k, status, now);
    var r2 := Upsert(r, k, status, later);
    assert |r2| == |r|;
    forall i | 0 <= i < |r| ensures r2[i] == r[i] {
      if r[i].KeyOf() == k {
        assert r[i].status == status;
      }
    }
  }

  /** Marking present and then absent leaves one record, whose status is the
      last one written. */
  lemma LastWriteWins(ledger: seq<Record>, k: Key, first: string, second: string, t1: string, t2: string)
    requires UniqueKeys(ledger)
    ensures var r := Upsert(Upsert(ledger, k, first, t1), k, second, t2);
            CountKey(r, k) == 1
            && forall i :: 0 <= i < |r| && r[i].KeyOf() == k ==> r[i].status == second
  {
    UpsertPreservesUniqueKeys(ledger, k, first, t1);
    UpsertExactlyOne(Upsert(ledger, k, first, t1), k, second, t2);
  }
}

=== FILE: option.dfy ===
/** The optional value Python expresses with `None`. */
module Optional {

  datatype Option<+T> = None | Some(value: T)
}

=== FILE: recognizer.dfy ===
/**
 Face enrollment and recognition (`train_recognizer`, `recognize_face`).
 The face detector, the LBPH trainer/predictor and the model files are
 outside the model: enrollment sees only how many faces were detected and
 whether the train-and-save block raised; recognition sees only the face
 count and what `predict` returned.
 */
module Recognizer {
  import opened Optional
  import opened LabelMaps

  /** Largest LBPH distance still accepted as a match (exclusive). */
  const Threshold: real := 70.0

  /** Which calls of the train-and-save block raised. */
  datatype TrainStep = TrainStep(updateRaised: bool, trainRaised: bool, saveRaised: bool)
  {
    /** `update` worked, or its failure fell back to a `train` that worked,
        and then the model file and the pickled map were written. */
    predicate Succeeded() {
      (!updateRaised || !trainRaised) && !saveRaised
    }
  }

  /** Result of `train_recognizer`: the returned flag, the label map after the
      call, and the label the face sample was handed to the trainer under
      (None when the frame was rejected before training). */
  datatype Enrollment = Enrollment(ok: bool, labels: LabelMap, sampleLabel: Option<int>)

  /** What `predict` produced: a label with its distance, or an exception. */
  datatype Prediction = Predicted(id: int, confidence: real) | PredictRaised

  /** `train_recognizer(image, student)` on a frame with `faceCount` faces. */
  function Enroll(m: LabelMap, faceCount: nat, student: int, step: TrainStep): (r: Enrollment)
    // frames with no face or several faces: failure, map untouched
    ensures faceCount != 1 ==> !r.ok && r.labels == m && r.sampleLabel == None
    // success exactly when the frame has one face and training and saving worked
    ensures r.ok <==> faceCount == 1 && step.Succeeded()
    // an enrolled student keeps the label found by reverse lookup; map untouched
    ensures student in Students(m) ==> r.labels == m
    ensures faceCount == 1 && student in Students(m) ==> r.sampleLabel == FindLabel(m, student)
    // a one-face frame files the sample under a label that maps to the student,
    // whether or not training and saving then fail
    ensures faceCount == 1 ==>
              r.sampleLabel.Some? && Get(r.labels, r.sampleLabel.value) == Some(student)
    // a new student gets a label above every existing one; nothing else changes
    ensures faceCount == 1 && student !in Students(m) ==>
              && r.sampleLabel == Some(NextLabel(m))
              && r.sampleLabel.value !in Labels(m)
              && Labels(r.labels) == Labels(m) + {r.sampleLabel.value}
              && Students(r.labels) == Students(m) + {student}
              && (forall l :: l in Labels(m) ==> Get(r.labels, l) == Get(m, l))
    ensures Injective(m) ==> Injective(r.labels)
    ensures Dense(m) ==> Dense(r.labels)
    // entries are only ever appended
    ensures m <= r.labels
  {
    if faceCount != 1 then Enrollment(false, m, None)
    else
      match FindLabel(m, student)
      case Some(key) => Enrollment(step.Succeeded(), m, Some(key))
      case None =>
        var key := NextLabel(m);
        DenseNextLabel(m);
        Enrollment(step.Succeeded(), Add(m, key, student), Some(key))
  }

  /** `recognize_face(image)` on a frame with `faceCount` faces, given what
      `predict` returned for it. */
  function Recognize(m: LabelMap, faceCount: nat, p: Prediction): (r: Option<int>)
    ensures faceCount != 1 ==> r == None
    ensures p.PredictRaised? ==> r == None
    ensures r.Some? <==> faceCount == 1 && p.Predicted? && p.confidence < Threshold
                         && p.id in Labels(m)
    ensures r.Some? ==> (p.id, r.value) in m
  {
    if faceCount != 1 then None
    else
      match p
      case PredictRaised => None
      case Predicted(id, confidence) =>
        if confidence < Threshold then Get(m, id) else None
  }

  /** One call of `train_recognizer` in a sequence of calls. */
  datatype EnrollRequest = EnrollRequest(faceCount: nat, student: int, step: TrainStep)

  /** The students that a sequence of calls puts into the map: those of the
      calls whose frame held exactly one face. */
  function Enrolled(reqs: seq<EnrollRequest>): (s: set<int>)
    ensures forall i :: 0 <= i < |reqs| && reqs[i].faceCount == 1 ==> reqs[i].student in s
    ensures forall x :: x in s ==> exists i :: 0 <= i < |reqs| && reqs[i].faceCount == 1
                                              && reqs[i].student == x
    decreases |reqs|
  {
    if |reqs| == 0 then {}
    else
      var q := reqs[|reqs| - 1];
      var init := reqs[..|reqs| - 1];
      assert forall i :: 0 <= i < |init| ==> init[i] == reqs[i];
      Enrolled(init) + (if q.faceCount == 1 then {q.student} else {})
  }

  /** The label map after the calls `reqs`, in order. */
  function EnrollAll(m: LabelMap, reqs: seq<EnrollRequest>): (r: LabelMap)
    ensures Students(r) == Students(m) + Enrolled(reqs)
    ensures Injective(m) ==> Injective(r)
    ensures Dense(m) ==> Dense(r)
    ensures m <= r
    decreases |reqs|
  {
    if |reqs| == 0 then m
    else
      var q := reqs[|reqs| - 1];
      Enroll(EnrollAll(m, reqs[..|reqs| - 1]), q.faceCount, q.student, q.step).labels
  }

  /** However many times students are enrolled, starting from an injective
      map (the empty one included), each enrolled student is the value of
      exactly one label. */
  lemma OneLabelPerStudent(m: LabelMap, reqs: seq<EnrollRequest>, student: int)
    requires Injective(m)
    requires student in Students(m) + Enrolled(reqs)
    ensures LabelCount(EnrollAll(m, reqs), student) == 1
  {
    InjectiveLabelCount(EnrollAll(m, reqs), student);
  }

  /** Enrolling the same student a second time leaves the map as the first
      enrollment left it and trains under the same label. */
  lemma ReenrollIdempotent(m: LabelMap, student: int, s1: TrainStep, s2: TrainStep)
    ensures var e1 := Enroll(m, 1, student, s1);
            var e2 := Enroll(e1.labels, 1, student, s2);
            e2.labels == e1.labels && e2.sampleLabel == e1.sampleLabel
  {
    var e1 := Enroll(m, 1, student, s1);
    if student !in Students(m) {
      // the only entry holding the student is the one just appended
      var f := FindLabel(e1.labels, student);
      var j :| 0 <= j < |e1.labels| && e1.labels[j] == (f.value, student);
      assert j == |m|;
    }
  }

  /** After a one-face enrollment, a confident prediction of the sample's
      label is recognised as that student. */
  lemma EnrollThenRecognize(m: LabelMap, student: int, step: TrainStep, confidence: real)
    requires confidence < Threshold
    ensures var e := Enroll(m, 1, student, step);
            Recognize(e.labels, 1, Predicted(e.sampleLabel.value, confidence)) == Some(student)
  {
  }
}

=== FILE: summary.dfy ===
/**
 `attendance_summary`: every student LEFT JOINed with the attendance rows of
 one course and date, ordered by roll number.
 */
module Summary {
  import opened Optional
  import opened Ledger

  /** A `students` row: internal id, unique roll number (`student_id` column), names. */
  datatype Student = Student(id: int, rollNumber: string, firstName: string, lastName: string)

  /** `s.id, s.student_id AS roll_number, s.first_name, s.last_name, a.status`;
      `status` is None where the join found no attendance row (SQL NULL). */
  datatype SummaryRow = SummaryRow(id: int, rollNumber: string, firstName: string,
                                   lastName: string, status: Option<string>)

  function RowFor(s: Student, status: Option<string>): SummaryRow {
    SummaryRow(s.id, s.rollNumber, s.firstName, s.lastName, status)
  }

  /** The student a row was built from. */
  function StudentOf(row: SummaryRow): Student {
    Student(row.id, row.rollNumber, row.firstName, row.lastName)
  }

  /** The students the rows were built from. */
  function StudentsOf(rows: seq<SummaryRow>): set<Student> {
    set row | row in rows :: StudentOf(row)
  }

  // ---------------------------------------------------------------------
  // ORDER BY s.student_id: TEXT under SQLite's BINARY collation, which
  // compares character codes left to right, a proper prefix sorting first.

  predicate RollLe(a: string, b: string)
    decreases |a|
  {
    |a| == 0 || (|b| > 0 && (a[0] < b[0] || (a[0] == b[0] && RollLe(a[1..], b[1..]))))
  }

  lemma {:induction false} RollLeTotal(a: string, b: string)
    ensures RollLe(a, b) || RollLe(b, a)
    decreases |a|
  {
    if |a| > 0 && |b| > 0 && a[0] == b[0] {
      RollLeTotal(a[1..], b[1..]);
    }
  }

  lemma {:induction false} RollLeTransitive(a: string, b: string, c: string)
    requires RollLe(a, b) && RollLe(b, c)
    ensures RollLe(a, c)
    decreases |a|
  {
    if |a| > 0 && a[0] == b[0] && b[0] == c[0] {
      RollLeTransitive(a[1..], b[1..], c[1..]);
    }
  }

  lemma {:induction false} RollLeAntisymmetric(a: string, b: string)
    requires RollLe(a, b) && RollLe(b, a)
    ensures a == b
    decreases |a|
  {
    if |a| > 0 {
      RollLeAntisymmetric(a[1..], b[1..]);
      assert a == [a[0]] + a[1..] && b == [b[0]] + b[1..];
    }
  }

  ghost predicate SortedByRoll(s: seq<Student>) {
    forall i, j :: 0 <= i < j < |s| ==> RollLe(s[i].rollNumber, s[j].rollNumber)
  }

  /** Insert `x` into a roll-ordered list, before the first student whose roll
      number is not smaller. */
  function InsertByRoll(x: Student, s: seq<Student>): (r: seq<Student>)
    requires SortedByRoll(s)
    ensures SortedByRoll(r)
    ensures multiset(r) == multiset(s) + multiset{x}
  {
    if |s| == 0 then [x]
    else if RollLe(x.rollNumber, s[0].rollNumber) then
      InsertFront(x, s);
      [x] + s
    else
      RollLeTotal(x.rollNumber, s[0].rollNumber);
      var tail := InsertByRoll(x, s[1..]);
      InsertLater(x, s, tail);
      [s[0]] + tail
  }

  lemma InsertFront(x: Student, s: seq<Student>)
    requires SortedByRoll(s) && |s| > 0 && RollLe(x.rollNumber, s[0].rollNumber)
    ensures SortedByRoll([x] + s)
  {
    forall j | 0 <= j < |s| ensures RollLe(x.rollNumber, s[j].rollNumber) {
      if j > 0 { RollLeTransitive(x.rollNumber, s[0].rollNumber, s[j].rollNumber); }
    }
    var r := [x] + s;
    forall i, j | 0 <= i < j < |r| ensures RollLe(r[i].rollNumber, r[j].rollNumber) {
      assert r[j] == s[j - 1];
      if i > 0 { assert r[i] == s[i - 1]; }
    }
  }

  lemma InsertLater(x: Student, s: seq<Student>, tail: seq<Student>)
    requires SortedByRoll(s) && |s| > 0 && RollLe(s[0].rollNumber, x.rollNumber)
    requires SortedByRoll(tail) && multiset(tail) == multiset(s[1..]) + multiset{x}
    ensures SortedByRoll([s[0]] + tail)
    ensures multiset([s[0]] + tail) == multiset(s) + multiset{x}
  {
    assert s == [s[0]] + s[1..];
    forall y | y in multiset(tail) ensures RollLe(s[0].rollNumber, y.rollNumber) {
      assert y in multiset(s[1..]) || y == x;
      if y != x {
        var j :| 0 <= j < |s[1..]| && s[1..][j] == y;
        assert s[j + 1] == y;
      }
    }
    var r := [s[0]] + tail;
    forall i, j | 0 <= i < j < |r| ensures RollLe(r[i].rollNumber, r[j].rollNumber) {
      assert r[j] == tail[j - 1];
      assert tail[j - 1] in multiset(tail);
      if i > 0 { assert r[i] == tail[i - 1]; }
    }
  }

  /** The students in roll-number order. */
  function SortByRoll(s: seq<Student>): (r: seq<Student>)
    ensures SortedByRoll(r)
    ensures multiset(r) == multiset(s)
    ensures |r| == |s|
  {
    if |s| == 0 then []
    else
      assert s == [s[0]] + s[1..];
      var r := InsertByRoll(s[0], SortByRoll(s[1..]));
      assert |r| == |multiset(r)|;
      r
  }

  // ---------------------------------------------------------------------
  // LEFT JOIN attendance a ON s.id = a.student_id AND a.course_id = ? AND a.date = ?

  /** The positions of the rows with key `k` and status `st`. */
  ghost function StatusRows(ledger: seq<Record>, k: Key, st: string): set<int> {
    set i | 0 <= i < |ledger| && ledger[i].KeyOf() == k && ledger[i].status == st
  }

  /** Every position moved one row down. */
  ghost function Shifted(positions: set<int>): set<int> {
    set i | i in positions :: i + 1
  }

  lemma ShiftedAdd(positions: set<int>, x: int)
    ensures Shifted(positions + {x}) == Shifted(positions) + {x + 1}
  {
    forall y | y in Shifted(positions + {x}) ensures y in Shifted(positions) + {x + 1} {
      var i :| i in positions + {x} && y == i + 1;
      if i != x { assert i in positions; }
    }
    forall y | y in Shifted(positions) + {x + 1} ensures y in Shifted(positions + {x}) {
      if y != x + 1 {
        var i :| i in positions && y == i + 1;
        assert i in positions + {x};
      } else {
        assert x in positions + {x};
      }
    }
  }

  lemma {:induction false} ShiftCard(positions: set<int>, n: nat)
    requires forall i :: i in positions ==> 0 <= i < n
    ensures |Shifted(positions)| == |positions|
  {
    if n == 0 {
      assert forall i: int :: i in positions <==> i in {};
      assert Shifted(positions) == {};
    } else {
      var below := positions - {n - 1};
      ShiftCard(below, n - 1);
      if n - 1 in positions {
        assert positions == below + {n - 1};
        ShiftedAdd(below, n - 1);
        assert n !in Shifted(below);
      } else {
        assert positions == below;
      }
    }
  }

  /** The matching positions after the first row are those of the tail,
      moved one row down. */
  lemma StatusRowsTail(ledger: seq<Record>, k: Key, st: string)
    requires |ledger| > 0
    ensures StatusRows(ledger, k, st) - {0} == Shifted(StatusRows(ledger[1..], k, st))
  {
    var tail := StatusRows(ledger[1..], k, st);
    forall i | i in Shifted(tail) ensures i in StatusRows(ledger, k, st) - {0} {
      var j :| j in tail && i == j + 1;
      assert ledger[1..][j] == ledger[i];
    }
    forall i | i in StatusRows(ledger, k, st) - {0} ensures i in Shifted(tail) {
      assert ledger[1..][i - 1] == ledger[i];
      assert i - 1 in tail;
    }
  }

  /** Dropping the first row: the first row counts if it matches, the rest
      count as in the tail. */
  lemma StatusRowsStep(ledger: seq<Record>, k: Key, st: string)
    requires |ledger| > 0
    ensures |StatusRows(ledger, k, st)|
            == (if ledger[0].KeyOf() == k && ledger[0].status == st then 1 else 0)
               + |StatusRows(ledger[1..], k, st)|
  {
    var all := StatusRows(ledger, k, st);
    var tail := StatusRows(ledger[1..], k, st);
    ShiftCard(tail, |ledger| - 1);
    StatusRowsTail(ledger, k, st);
    assert 0 in all <==> ledger[0].KeyOf() == k && ledger[0].status == st;
    SplitFirst(all, Shifted(tail));
  }

  /** Removing 0 from a set removes one member exactly when 0 was there. */
  lemma SplitFirst(positions: set<int>, rest: set<int>)
    requires positions - {0} == rest
    ensures |positions| == (if 0 in positions then 1 else 0) + |rest|
  {
    if 0 in positions {
      assert positions == rest + {0};
    } else {
      assert positions == rest;
    }
  }

  lemma WitnessStep(ledger: seq<Record>, k: Key, rest: seq<string>)
    requires |ledger| > 0
    requires forall j :: 0 <= j < |rest| ==>
               exists i :: 0 <= i < |ledger[1..]| && ledger[1..][i].KeyOf() == k && ledger[1..][i].status == rest[j]
    ensures var r := if ledger[0].KeyOf() == k then [ledger[0].status] + rest else rest;
            forall j :: 0 <= j < |r| ==>
              exists i :: 0 <= i < |ledger| && ledger[i].KeyOf() == k && ledger[i].status == r[j]
  {
    var r := if ledger[0].KeyOf() == k then [ledger[0].status] + rest else rest;
    var d := if ledger[0].KeyOf() == k then 1 else 0;
    forall j | 0 <= j < |r|
      ensures exists i :: 0 <= i < |ledger| && ledger[i].KeyOf() == k && ledger[i].status == r[j]
    {
      if j < d {
        assert ledger[0].KeyOf() == k && ledger[0].status == r[j];
      } else {
        assert r[j] == rest[j - d];
        var i :| 0 <= i < |ledger[1..]| && ledger[1..][i].KeyOf() == k && ledger[1..][i].status == rest[j - d];
        assert ledger[i + 1] == ledger[1..][i];
      }
    }
  }

  lemma CoverageStep(ledger: seq<Record>, k: Key, rest: seq<string>)
    requires |ledger| > 0
    requires forall i :: 0 <= i < |ledger[1..]| && ledger[1..][i].KeyOf() == k ==> ledger[1..][i].status in rest
    ensures var r := if ledger[0].KeyOf() == k then [ledger[0].status] + rest else rest;
            forall i :: 0 <= i < |ledger| && ledger[i].KeyOf() == k ==> ledger[i].status in r
  {
    var r := if ledger[0].KeyOf() == k then [ledger[0].status] + rest else rest;
    forall i | 0 <= i < |ledger| && ledger[i].KeyOf() == k ensures ledger[i].status in r {
      if i > 0 {
        assert ledger[1..][i - 1] == ledger[i];
      }
    }
  }

  lemma CountStatusStep(ledger: seq<Record>, k: Key, rest: seq<string>)
    requires |ledger| > 0
    requires forall st :: multiset(rest)[st] == |StatusRows(ledger[1..], k, st)|
    ensures forall st :: multiset(if ledger[0].KeyOf() == k then [ledger[0].status] + rest else rest)[st]
                         == |StatusRows(ledger, k, st)|
  {
    var r := if ledger[0].KeyOf() == k then [ledger[0].status] + rest else rest;
    forall st ensures multiset(r)[st] == |StatusRows(ledger, k, st)| {
      StatusRowsStep(ledger, k, st);
    }
  }

  /** The statuses of the rows with key `k`, in ledger order. */
  function MatchingStatuses(ledger: seq<Record>, k: Key): (r: seq<string>)
    ensures |r| == CountKey(ledger, k)
    ensures forall j :: 0 <= j < |r| ==>
              exists i :: 0 <= i < |ledger| && ledger[i].KeyOf() == k && ledger[i].status == r[j]
    ensures forall i :: 0 <= i < |ledger| && ledger[i].KeyOf() == k ==> ledger[i].status in r
    // each status occurs as often as there are matching rows carrying it
    ensures forall st :: multiset(r)[st] == |StatusRows(ledger, k, st)|
  {
    if |ledger| == 0 then []
    else
      var rest := MatchingStatuses(ledger[1..], k);
      WitnessStep(ledger, k, rest);
      CoverageStep(ledger, k, rest);
      CountStatusStep(ledger, k, rest);
      if ledger[0].KeyOf() == k then [ledger[0].status] + rest else rest
  }

  /** The status recorded under `k`, or None when there is no such record. */
  function StatusOf(ledger: seq<Record>, k: Key): (r: Option<string>)
    ensures r.None? <==> !HasKey(ledger, k)
    ensures r.Some? ==> exists i :: 0 <= i < |ledger| && ledger[i].KeyOf() == k
                                    && ledger[i].status == r.value
  {
    var ms := MatchingStatuses(ledger, k);
    if |ms| == 0 then None else Some(ms[0])
  }

  /** The joined rows of one student: one per matching attendance row, or a
      single row with a NULL status when there is none. */
  function JoinStudent(s: Student, ledger: seq<Record>, courseId: int, date: string)
    : (rows: seq<SummaryRow>)
    ensures |rows| == if HasKey(ledger, Key(courseId, s.id, date))
                      then CountKey(ledger, Key(courseId, s.id, date)) else 1
    ensures forall row :: row in rows ==> StudentOf(row) == s
    ensures !HasKey(ledger, Key(courseId, s.id, date)) ==> rows == [RowFor(s, None)]
    ensures forall j :: 0 <= j < |rows| && rows[j].status.Some? ==>
              exists i :: 0 <= i < |ledger| && ledger[i].KeyOf() == Key(courseId, s.id, date)
                          && ledger[i].status == rows[j].status.value
    ensures HasKey(ledger, Key(courseId, s.id, date)) ==> forall row :: row in rows ==> row.status.Some?
    ensures forall i :: 0 <= i < |ledger| && ledger[i].KeyOf() == Key(courseId, s.id, date) ==>
              RowFor(s, Some(ledger[i].status)) in rows
    // one row per matching record: each status as often as the records carry it
    ensures HasKey(ledger, Key(courseId, s.id, date)) ==>
              forall st :: multiset(rows)[RowFor(s, Some(st))] == |StatusRows(ledger, Key(courseId, s.id, date), st)|
  {
    var ms := MatchingStatuses(ledger, Key(courseId, s.id, date));
    if |ms| == 0 then [RowFor(s, None)]
    else
      var rows := RowsWith(s, ms);
      JoinedRows(s, ms, rows, ledger, Key(courseId, s.id, date));
      rows
  }

  /** One row of `s` per status, in order. */
  function RowsWith(s: Student, ms: seq<string>): (rows: seq<SummaryRow>)
    ensures |rows| == |ms|
    ensures forall j :: 0 <= j < |ms| ==> rows[j] == RowFor(s, Some(ms[j]))
  {
    if |ms| == 0 then [] else [RowFor(s, Some(ms[0]))] + RowsWith(s, ms[1..])
  }

  /** The rows built one for one from the matching statuses. */
  lemma JoinedRows(s: Student, ms: seq<string>, rows: seq<SummaryRow>, ledger: seq<Record>, k: Key)
    requires forall j :: 0 <= j < |ms| ==>
               exists i :: 0 <= i < |ledger| && ledger[i].KeyOf() == k && ledger[i].status == ms[j]
    requires forall i :: 0 <= i < |ledger| && ledger[i].KeyOf() == k ==> ledger[i].status in ms
    requires forall st :: multiset(ms)[st] == |StatusRows(ledger, k, st)|
    requires |rows| == |ms|
    requires forall j :: 0 <= j < |ms| ==> rows[j] == RowFor(s, Some(ms[j]))
    ensures forall row :: row in rows ==> StudentOf(row) == s && row.status.Some?
    ensures forall j :: 0 <= j < |rows| && rows[j].status.Some? ==>
              exists i :: 0 <= i < |ledger| && ledger[i].KeyOf() == k && ledger[i].status == rows[j].status.value
    ensures forall i :: 0 <= i < |ledger| && ledger[i].KeyOf() == k ==> RowFor(s, Some(ledger[i].status)) in rows
    ensures forall st :: multiset(rows)[RowFor(s, Some(st))] == |StatusRows(ledger, k, st)|
  {
    JoinedCounts(s, ms, rows, ledger, k);
    forall st | st in ms ensures RowFor(s, Some(st)) in rows {
      var j :| 0 <= j < |ms| && ms[j] == st;
      assert rows[j] == RowFor(s, Some(st));
    }
  }

  /** Rows built from statuses one for one count each status as often. */
  lemma {:induction false} MappedCount(s: Student, ms: seq<string>, rows: seq<SummaryRow>, st: string)
    requires |rows| == |ms|
    requires forall j :: 0 <= j < |ms| ==> rows[j] == RowFor(s, Some(ms[j]))
    ensures multiset(rows)[RowFor(s, Some(st))] == multiset(ms)[st]
  {
    if |ms| > 0 {
      MappedCount(s, ms[1..], rows[1..], st);
      assert ms == [ms[0]] + ms[1..];
      assert rows == [rows[0]] + rows[1..];
    }
  }

  lemma JoinedCounts(s: Student, ms: seq<string>, rows: seq<SummaryRow>, ledger: seq<Record>, k: Key)
    requires |rows| == |ms|
    requires forall j :: 0 <= j < |ms| ==> rows[j] == RowFor(s, Some(ms[j]))
    requires forall st :: multiset(ms)[st] == |StatusRows(ledger, k, st)|
    ensures forall st :: multiset(rows)[RowFor(s, Some(st))] == |StatusRows(ledger, k, st)|
  {
    forall st ensures multiset(rows)[RowFor(s, Some(st))] == |StatusRows(ledger, k, st)| {
      MappedCount(s, ms, rows, st);
    }
  }

  /** The joined rows of the students `ss`, in the order of `ss`. */
  function JoinAll(ss: seq<Student>, ledger: seq<Record>, courseId: int, date: string)
    : (rows: seq<SummaryRow>)
    ensures forall row :: row in rows ==> StudentOf(row) in ss
    ensures forall s :: s in ss ==> s in StudentsOf(rows)
    ensures |rows| >= |ss|
  {
    if |ss| == 0 then []
    else
      var head := JoinStudent(ss[0], ledger, courseId, date);
      var tail := JoinAll(ss[1..], ledger, courseId, date);
      CoverStep(ss, head, tail);
      head + tail
  }

  /** One student's rows followed by rows covering the rest of the list cover
      the whole list. */
  lemma CoverStep(ss: seq<Student>, head: seq<SummaryRow>, tail: seq<SummaryRow>)
    requires |ss| > 0 && |head| > 0
    requires forall row :: row in head ==> StudentOf(row) == ss[0]
    requires forall row :: row in tail ==> StudentOf(row) in ss[1..]
    requires forall s :: s in ss[1..] ==> s in StudentsOf(tail)
    requires |tail| >= |ss| - 1
    ensures forall row :: row in head + tail ==> StudentOf(row) in ss
    ensures forall s :: s in ss ==> s in StudentsOf(head + tail)
    ensures |head + tail| >= |ss|
  {
    var rows := head + tail;
    assert head[0] in rows && StudentOf(head[0]) == ss[0];
    forall s | s in ss[1..] ensures s in StudentsOf(rows) {
      var row :| row in tail && StudentOf(row) == s;
      assert row in rows;
    }
    forall s | s in ss ensures s == ss[0] || s in ss[1..] {
      var j :| 0 <= j < |ss| && ss[j] == s;
      if j > 0 { assert ss[1..][j - 1] == s; }
    }
    forall row | row in rows ensures StudentOf(row) in ss {
      if row !in head {
        assert row in tail;
        var j :| 0 <= j < |ss[1..]| && ss[1..][j] == StudentOf(row);
        assert ss[j + 1] == StudentOf(row);
      }
    }
  }

  /** The rows `attendance_summary` shows for a course and date. */
  function AttendanceSummary(students: seq<Student>, ledger: seq<Record>, courseId: int,
                             date: string): (rows: seq<SummaryRow>)
    ensures forall row :: row in rows ==> StudentOf(row) in students
    ensures forall s :: s in students ==> s in StudentsOf(rows)
    ensures |rows| >= |students|
  {
    var sorted := SortByRoll(students);
    assert forall s :: s in sorted ==> s in multiset(sorted);
    assert forall s :: s in students ==> s in multiset(students);
    JoinAll(sorted, ledger, courseId, date)
  }

  // ---------------------------------------------------------------------
  // Properties of the summary

  /** Summary rows in non-decreasing roll-number order. */
  ghost predicate RowsOrdered(rows: seq<SummaryRow>) {
    forall i, j :: 0 <= i < j < |rows| ==> RollLe(rows[i].rollNumber, rows[j].rollNumber)
  }

  lemma {:induction false} RollLeReflexive(a: string)
    ensures RollLe(a, a)
  {
    RollLeTotal(a, a);
  }

  lemma OrderedConcat(a: seq<SummaryRow>, b: seq<SummaryRow>)
    requires RowsOrdered(a) && RowsOrdered(b)
    requires forall x, y :: x in a && y in b ==> RollLe(x.rollNumber, y.rollNumber)
    ensures RowsOrdered(a + b)
  {
    var r := a + b;
    forall i, j | 0 <= i < j < |r| ensures RollLe(r[i].rollNumber, r[j].rollNumber) {
      if j < |a| {
        assert r[i] == a[i] && r[j] == a[j];
      } else if i >= |a| {
        assert r[i] == b[i - |a|] && r[j] == b[j - |a|];
      } else {
        assert r[i] in a && r[j] in b;
      }
    }
  }

  lemma JoinStudentOrdered(s: Student, ledger: seq<Record>, courseId: int, date: string)
    ensures RowsOrdered(JoinStudent(s, ledger, courseId, date))
  {
    var rows := JoinStudent(s, ledger, courseId, date);
    RollLeReflexive(s.rollNumber);
    forall i, j | 0 <= i < j < |rows| ensures RollLe(rows[i].rollNumber, rows[j].rollNumber) {
      assert rows[i] in rows && rows[j] in rows;
    }
  }

  lemma HeadBeforeTail(ss: seq<Student>, later: Student)
    requires SortedByRoll(ss) && |ss| > 0
    requires later in ss[1..]
    ensures RollLe(ss[0].rollNumber, later.rollNumber)
  {
    var k :| 0 <= k < |ss[1..]| && ss[1..][k] == later;
    assert ss[k + 1] == later;
  }

  lemma {:induction false} JoinAllOrdered(ss: seq<Student>, ledger: seq<Record>, courseId: int, date: string)
    requires SortedByRoll(ss)
    ensures RowsOrdered(JoinAll(ss, ledger, courseId, date))
  {
    if |ss| > 0 {
      var head := JoinStudent(ss[0], ledger, courseId, date);
      var tail := JoinAll(ss[1..], ledger, courseId, date);
      JoinAllOrdered(ss[1..], ledger, courseId, date);
      JoinStudentOrdered(ss[0], ledger, courseId, date);
      forall x, y | x in head && y in tail ensures RollLe(x.rollNumber, y.rollNumber) {
        HeadBeforeTail(ss, StudentOf(y));
      }
      OrderedConcat(head, tail);
    }
  }

  /** Rows come out in roll-number order. */
  lemma SummaryOrdered(students: seq<Student>, ledger: seq<Record>, courseId: int, date: string)
    ensures RowsOrdered(AttendanceSummary(students, ledger, courseId, date))
  {
    JoinAllOrdered(SortByRoll(students), ledger, courseId, date);
  }

  lemma {:induction false} JoinAllInsert(x: Student, ss: seq<Student>, ledger: seq<Record>,
                                         courseId: int, date: string)
    requires SortedByRoll(ss)
    ensures multiset(JoinAll(InsertByRoll(x, ss), ledger, courseId, date))
            == multiset(JoinStudent(x, ledger, courseId, date)) + multiset(JoinAll(ss, ledger, courseId, date))
  {
    var ins := InsertByRoll(x, ss);
    JoinAllCons(ins, ledger, courseId, date);
    if |ss| > 0 && !RollLe(x.rollNumber, ss[0].rollNumber) {
      JoinAllInsert(x, ss[1..], ledger, courseId, date);
      assert ins[1..] == InsertByRoll(x, ss[1..]);
      JoinAllCons(ss, ledger, courseId, date);
      MultisetSwap(JoinStudent(ss[0], ledger, courseId, date), JoinAll(ins[1..], ledger, courseId, date),
                   JoinStudent(x, ledger, courseId, date), JoinAll(ss[1..], ledger, courseId, date));
    } else {
      assert ins[1..] == ss;
    }
  }

  lemma MultisetSwap(h: seq<SummaryRow>, a: seq<SummaryRow>, b: seq<SummaryRow>, t: seq<SummaryRow>)
    requires multiset(a) == multiset(b) + multiset(t)
    ensures multiset(h + a) == multiset(b) + multiset(h + t)
  {
  }

  /** Sorting does not change which rows the join produces, only their order. */
  lemma {:induction false} SortKeepsRows(ss: seq<Student>, ledger: seq<Record>, courseId: int, date: string)
    ensures multiset(JoinAll(SortByRoll(ss), ledger, courseId, date))
            == multiset(JoinAll(ss, ledger, courseId, date))
  {
    if |ss| > 0 {
      SortKeepsRows(ss[1..], ledger, courseId, date);
      JoinAllInsert(ss[0], SortByRoll(ss[1..]), ledger, courseId, date);
    }
  }

  lemma JoinStudentUnique(s: Student, ledger: seq<Record>, courseId: int, date: string)
    requires UniqueKeys(ledger)
    ensures JoinStudent(s, ledger, courseId, date)
            == [RowFor(s, StatusOf(ledger, Key(courseId, s.id, date)))]
  {
    var k := Key(courseId, s.id, date);
    if HasKey(ledger, k) {
      UniqueCount(ledger, k);
    }
  }

  /** With at most one attendance row per key, each student yields exactly one
      row, carrying that record's status or None. */
  lemma {:induction false} JoinAllUnique(ss: seq<Student>, ledger: seq<Record>, courseId: int, date: string)
    requires UniqueKeys(ledger)
    ensures var rows := JoinAll(ss, ledger, courseId, date);
            |rows| == |ss|
            && forall i :: 0 <= i < |ss| ==>
                 rows[i] == RowFor(ss[i], StatusOf(ledger, Key(courseId, ss[i].id, date)))
  {
    if |ss| > 0 {
      JoinAllUnique(ss[1..], ledger, courseId, date);
      JoinStudentUnique(ss[0], ledger, courseId, date);
      var tail := JoinAll(ss[1..], ledger, courseId, date);
      var expected := (x: Student) => RowFor(x, StatusOf(ledger, Key(courseId, x.id, date)));
      forall i | 0 <= i < |tail| ensures tail[i] == expected(ss[i + 1]) {
        assert ss[1..][i] == ss[i + 1];
      }
      ConsRows(ss, tail, expected);
    }
  }

  lemma ConsRows(ss: seq<Student>, tail: seq<SummaryRow>, expected: Student -> SummaryRow)
    requires |ss| > 0 && |tail| == |ss| - 1
    requires forall i :: 0 <= i < |tail| ==> tail[i] == expected(ss[i + 1])
    ensures forall i :: 0 <= i < |ss| ==> ([expected(ss[0])] + tail)[i] == expected(ss[i])
  {
  }

  /** Every row of a listed student's join appears in the whole join. */
  lemma {:induction false} JoinAllHasStudentRows(ss: seq<Student>, ledger: seq<Record>, courseId: int,
                                                 date: string, s: Student)
    requires s in ss
    ensures forall row :: row in JoinStudent(s, ledger, courseId, date) ==> row in JoinAll(ss, ledger, courseId, date)
  {
    var head := JoinStudent(ss[0], ledger, courseId, date);
    var tail := JoinAll(ss[1..], ledger, courseId, date);
    JoinAllCons(ss, ledger, courseId, date);
    if ss[0] != s {
      LaterMember(ss, s);
      JoinAllHasStudentRows(ss[1..], ledger, courseId, date, s);
    }
    forall row | row in JoinStudent(s, ledger, courseId, date) ensures row in head + tail {
      InConcat(row, head, tail);
    }
  }

  /** Conversely, every joined row is one of its own student's join rows:
      the whole join adds nothing to what each student's join gives. */
  lemma {:induction false} JoinAllOnlyStudentRows(ss: seq<Student>, ledger: seq<Record>, courseId: int,
                                                  date: string)
    ensures forall row :: row in JoinAll(ss, ledger, courseId, date) ==>
              row in JoinStudent(StudentOf(row), ledger, courseId, date)
  {
    if |ss| > 0 {
      var head := JoinStudent(ss[0], ledger, courseId, date);
      var tail := JoinAll(ss[1..], ledger, courseId, date);
      JoinAllCons(ss, ledger, courseId, date);
      JoinAllOnlyStudentRows(ss[1..], ledger, courseId, date);
      forall row | row in head + tail ensures row in JoinStudent(StudentOf(row), ledger, courseId, date) {
        if row in head {
          assert StudentOf(row) == ss[0];
        }
      }
    }
  }

  /** Every summary row is one of the LEFT JOIN rows of the student it shows. */
  lemma SummaryRowsOfStudent(students: seq<Student>, ledger: seq<Record>, courseId: int, date: string)
    ensures forall row :: row in AttendanceSummary(students, ledger, courseId, date) ==>
              row in JoinStudent(StudentOf(row), ledger, courseId, date)
  {
    JoinAllOnlyStudentRows(SortByRoll(students), ledger, courseId, date);
  }

  lemma LaterMember(ss: seq<Student>, s: Student)
    requires s in ss && ss[0] != s
    ensures s in ss[1..]
  {
    var j :| 0 <= j < |ss| && ss[j] == s;
    assert ss[1..][j - 1] == s;
  }

  lemma InConcat(row: SummaryRow, head: seq<SummaryRow>, tail: seq<SummaryRow>)
    requires row in head || row in tail
    ensures row in head + tail
  {
  }

  lemma JoinAllCons(ss: seq<Student>, ledger: seq<Record>, courseId: int, date: string)
    requires |ss| > 0
    ensures JoinAll(ss, ledger, courseId, date)
            == JoinStudent(ss[0], ledger, courseId, date) + JoinAll(ss[1..], ledger, courseId, date)
  {
  }

  lemma {:induction false} RowCount(ss: seq<Student>, ledger: seq<Record>, courseId: int, date: string, s: Student)
    requires UniqueKeys(ledger)
    ensures multiset(JoinAll(ss, ledger, courseId, date))[RowFor(s, StatusOf(ledger, Key(courseId, s.id, date)))]
            == multiset(ss)[s]
  {
    if |ss| > 0 {
      var row := RowFor(s, StatusOf(ledger, Key(courseId, s.id, date)));
      var first := RowFor(ss[0], StatusOf(ledger, Key(courseId, ss[0].id, date)));
      var tail := JoinAll(ss[1..], ledger, courseId, date);
      RowCount(ss[1..], ledger, courseId, date, s);
      JoinStudentUnique(ss[0], ledger, courseId, date);
      JoinAllCons(ss, ledger, courseId, date);
      CountStep(ss, first, tail, s, row);
    }
  }

  /** Counting step: a row built from the first student, followed by rows
      counted as in the rest of the list. */
  lemma CountStep(ss: seq<Student>, first: SummaryRow, tail: seq<SummaryRow>, s: Student, row: SummaryRow)
    requires |ss| > 0 && StudentOf(first) == ss[0] && StudentOf(row) == s
    requires first.status == row.status || ss[0] != s
    requires multiset(tail)[row] == multiset(ss[1..])[s]
    ensures multiset([first] + tail)[row] == multiset(ss)[s]
  {
    assert multiset([first] + tail) == multiset{first} + multiset(tail);
    assert multiset(ss) == multiset{ss[0]} + multiset(ss[1..]) by {
      assert ss == [ss[0]] + ss[1..];
    }
    assert first == row <==> ss[0] == s;
  }

  /** No two catalog rows share an id (the `students.id` primary key). */
  ghost predicate DistinctIds(ss: seq<Student>) {
    forall i, j :: 0 <= i < j < |ss| ==> ss[i].id != ss[j].id
  }

  lemma {:induction false} DistinctOnce(ss: seq<Student>, s: Student)
    requires DistinctIds(ss)
    requires s in ss
    ensures multiset(ss)[s] == 1
  {
    assert ss == [ss[0]] + ss[1..];
    if ss[0] == s {
      assert s !in ss[1..] by {
        forall j | 0 <= j < |ss[1..]| ensures ss[1..][j] != s {
          assert ss[j + 1].id != ss[0].id;
        }
      }
    } else {
      DistinctOnce(ss[1..], s);
    }
  }

  /** Under the one-record-per-key invariant, the summary lists every catalog
      student exactly once, with the status recorded for the course and date
      or None, and nothing else. */
  lemma SummaryOneRowPerStudent(students: seq<Student>, ledger: seq<Record>, courseId: int, date: string)
    requires UniqueKeys(ledger)
    requires DistinctIds(students)
    ensures var rows := AttendanceSummary(students, ledger, courseId, date);
            && |rows| == |students|
            && (forall s :: s in students ==>
                  multiset(rows)[RowFor(s, StatusOf(ledger, Key(courseId, s.id, date)))] == 1)
            && (forall row :: row in rows ==>
                  StudentOf(row) in students
                  && row.status == StatusOf(ledger, Key(courseId, row.id, date)))
  {
    var sorted := SortByRoll(students);
    var rows := AttendanceSummary(students, ledger, courseId, date);
    JoinAllUnique(sorted, ledger, courseId, date);
    forall s | s in students
      ensures multiset(rows)[RowFor(s, StatusOf(ledger, Key(courseId, s.id, date)))] == 1
    {
      RowCount(sorted, ledger, courseId, date, s);
      DistinctOnce(students, s);
    }
    forall row | row in rows
      ensures row.status == StatusOf(ledger, Key(courseId, row.id, date))
    {
      var i :| 0 <= i < |rows| && rows[i] == row;
    }
  }
}
